=== FILE: README.md ===
# Meta Bind: input field declarations and signals, in Dafny

This project models two parts of the Meta Bind plugin for Obsidian:

- **The input field parser** (`InputFieldParser.ts`) works around the declaration grammar. It turns a declaration string such as `INPUT[toggle(title(x)):note#prop]` into an unvalidated declaration, and on a parse error it falls back to an `INVALID` declaration that keeps the text and the error. It converts plain-data ("simple") declarations. It keeps a registry of named templates parsed from the settings. It applies the template a declaration names: an unknown name adds a warning, and a known one is merged with the declaration as the override.
- **The signals** (`Signal.ts`) are observable values. A `Notifier` holds an ordered listener list, a `Signal` notifies its listeners on every `set`, and a `ComputedSignal` derives its value from a signal through one listener registered on it.

Modules:

- `Wrappers` (`wrappers.dfy`): `Option` for TypeScript's `undefined` and `Result` for a call that either returns or throws.
- `Declarations` (`declarations.dfy`): the declaration data model. Argument name tokens are objects (`NameToken`), because the source compares them with `===`.
- `ArgumentDedup` (`dedup.dfy`): the `reduce` that de-duplicates merged arguments, specified generically by a key function.
- `InputFieldParsing` (`input_field_parser.dfy`): the class `InputFieldParser`, with its template registry as a mutable field. The full grammar, the template grammar and the bind target parser's conversion are parameters of its constructor.
- `Signals` (`signal.dfy`): the classes `Notifier`, `Signal` and `ComputedSignal`.

How callbacks are modelled:

- Callbacks form a closed datatype. `Record` is any client callback with no further effect. `Unregister` removes a listener of the notifier that calls it. `Recompute` is the callback a computed signal registers.
- Every call is logged in the notifier's `calls`. This is how the model states which listeners a notification round calls, in which order and with which value.
- A ghost `height` orders notifiers, so that the recursion from a notification into a computed signal's `Set` terminates.
- What a computed signal shows is its `State`: its value, its notifier's listener list and its call log. `Notified(o, x)` is that state after the signal is set to `x`. The contracts of a notification round say that every computed signal on the round's list ends in `Notified` of its state at the start of the round, and that no other object in the footprint changes.
- The listener a computed signal registers on its dependency never changes after construction. The model holds its id as a constant (`dependencyId`), and `DependencyListener()` rebuilds the listener from it.

`Get` on both signal classes is a function returning `value`. It states nothing beyond its body, so it has no row below.

## Model

| member | source | states |
|---|---|---|
| `InputFieldParsing.InputFieldParser.constructor` | packages/core/src/parsers/inputFieldParser/InputFieldParser.ts:33-36 | A new parser starts with an empty template registry. |
| `InputFieldParsing.InputFieldParser.FromString` | packages/core/src/parsers/inputFieldParser/InputFieldParser.ts:38-59 | The result always keeps the declaration text. When the grammar throws, the result is the `INVALID` fallback: no bind target, no arguments, no template, and exactly the thrown error. Otherwise it is the grammar's declaration with its template applied. This is the intended behaviour of a template merge; see Findings for the merge into a frozen template. |
| `InputFieldParsing.InputFieldParser.FromSimpleDeclaration` | packages/core/src/parsers/inputFieldParser/InputFieldParser.ts:74-89 | No text, no template and no errors. The field type and bind target are carried over when present, the bind target through the bind target parser. The arguments are converted one-to-one and in order: same name, same values, no positions, and every name token a distinct object allocated by the call. |
| `InputFieldParsing.FullDeclaration` | packages/core/src/parsers/inputFieldParser/InputFieldParser.ts:107-117 | The grammar's output with the declaration text and an empty error list. It is a definition; `FromString`'s contract is stated with it. |
| `InputFieldParsing.Fallback` | packages/core/src/parsers/inputFieldParser/InputFieldParser.ts:48-58 | The `INVALID` declaration for a text and a thrown error: the text, the `INVALID` field type, no bind target, no arguments, no template, and that one error. The `FromString`, `ParseTemplateString` and `FrozenTemplateFallsBack` contracts are stated with it. |
| `InputFieldParsing.OverlaidBindTarget` | packages/core/src/parsers/inputFieldParser/InputFieldParser.ts:139-151 | The merged bind target: the override's when the base has none, otherwise the base's with the override's path and then its property laid over it. It is a definition; `Merge` and `FrozenTemplateOverlaid` state their results with it. |
| `InputFieldParsing.Merged` | packages/core/src/parsers/inputFieldParser/InputFieldParser.ts:157-165 | The merged argument list has no name twice. It keeps the relative order of the override's arguments followed by the base's. Every name used by either declaration appears in it. |
| `InputFieldParsing.MergeOverrideWins` | packages/core/src/parsers/inputFieldParser/InputFieldParser.ts:157-165 | In a name clash the override wins: a merged argument whose name the override uses is one of the override's own arguments. |
| `InputFieldParsing.MergeBaseFillsGaps` | packages/core/src/parsers/inputFieldParser/InputFieldParser.ts:157-165 | The base fills exactly the gaps. A merged argument whose name the override lacks comes from the base, and every base name the override lacks is present, carried by a base argument. |
| `InputFieldParsing.InputFieldParser.Merge` | packages/core/src/parsers/inputFieldParser/InputFieldParser.ts:135-170 | The loop computes `Merged`. The override's text always wins, and its field type wins when present. The bind target is the override's when the base has none; otherwise it is the base's, with the override's path and property laid over it one at a time. There is no template name, and the errors are the base's followed by the override's. |
| `InputFieldParsing.AsWrittenKeepsEveryArgument` | packages/core/src/parsers/inputFieldParser/InputFieldParser.ts:157-165 | As written, with name tokens that are distinct objects, the de-duplication drops nothing: the result is the override's arguments followed by all of the base's. |
| `InputFieldParsing.AsWrittenKeepsNameClash` | packages/core/src/parsers/inputFieldParser/InputFieldParser.ts:161 | Hence, as written, a name set by both declarations appears twice in the merged declaration. |
| `InputFieldParsing.ArgumentsAsWritten` | packages/core/src/parsers/inputFieldParser/InputFieldParser.ts:157-165 | The argument list `merge` builds as written: de-duplication keyed on the name token object. Its properties are `AsWrittenKeepsEveryArgument` and `AsWrittenKeepsNameClash`. |
| `ArgumentDedup.Dedup` | packages/core/src/parsers/inputFieldParser/InputFieldParser.ts:159-165 | The `reduce`: each element is appended unless the accumulator already holds one with its key. It is a definition; its properties are the three rows below. |
| `ArgumentDedup.DedupFirstOccurrences` | packages/core/src/parsers/inputFieldParser/InputFieldParser.ts:159-165 | The `reduce` keeps exactly the first element with each key: no key twice, every key present, every first occurrence kept, and nothing else kept. |
| `ArgumentDedup.DedupSubsequence` | packages/core/src/parsers/inputFieldParser/InputFieldParser.ts:159-165 | The `reduce` only deletes elements; what it keeps stays in its original order. |
| `ArgumentDedup.DedupDistinctKeys` | packages/core/src/parsers/inputFieldParser/InputFieldParser.ts:159-165 | When no two elements share a key, the `reduce` returns its input unchanged. |
| `InputFieldParsing.InputFieldParser.ParseTemplateString` | packages/core/src/parsers/inputFieldParser/InputFieldParser.ts:176-194 | The result keeps the template text. On a grammar error it is the same `INVALID` fallback as `FromString`. Otherwise it has no errors and the grammar's arguments. |
| `InputFieldParsing.InputFieldParser.ParseTemplates` | packages/core/src/parsers/inputFieldParser/InputFieldParser.ts:196-214 | The registry is replaced by one entry per configured template, with the same names in the same order. The returned errors are all of their parse errors in that order. Looking up a configured name afterwards yields the first template of that name. |
| `InputFieldParsing.TemplateErrors` | packages/core/src/parsers/inputFieldParser/InputFieldParser.ts:200-211 | The registered templates' errors concatenated in registry order. It is a definition; `ParseTemplates`' contract is stated with it. |
| `InputFieldParsing.FindTemplate` | packages/core/src/parsers/inputFieldParser/InputFieldParser.ts:216-218 | Looking up a name finds nothing exactly when no template has that name. Otherwise it finds the template of the first entry with that name. |
| `InputFieldParsing.InputFieldParser.GetTemplate` | packages/core/src/parsers/inputFieldParser/InputFieldParser.ts:216-218 | The registry lookup. It is a definition on `FindTemplate`, whose row states what it finds. |
| `InputFieldParsing.TemplateNotFound` | packages/core/src/parsers/inputFieldParser/InputFieldParser.ts:228-237 | The warning for an unknown template name: level warning, the parser's origin, a message naming the template, the declaration text, the name's position and the templates guide link. It is a definition; `ApplyTemplate`'s contract is stated with it. |
| `InputFieldParsing.InputFieldParser.ApplyTemplate` | packages/core/src/parsers/inputFieldParser/InputFieldParser.ts:220-243 | Without a template name the declaration is returned unchanged. With an unknown name the result is the declaration with exactly one more error, a warning, at the end. With a known name the result is the template merged with the declaration as the override. `TemplateApplied` is this specification as a function. |
| `InputFieldParsing.InputFieldParser.ApplyTemplateAsWritten` | packages/core/src/parsers/inputFieldParser/InputFieldParser.ts:220-243 | `applyTemplate` as written on a frozen registry: it throws when the template and the declaration both have a bind target and the declaration sets a path or a property, and otherwise agrees with `TemplateApplied` except for the arguments, which are `ArgumentsAsWritten`, de-duplicated by name token object. Its property is `FrozenTemplateFallsBack`. |
| `InputFieldParsing.InputFieldParser.FromStringAsWritten` | packages/core/src/parsers/inputFieldParser/InputFieldParser.ts:38-59 | `fromString` as written: the template is applied by `ApplyTemplateAsWritten`, and an error thrown by the merge is caught like a grammar error. Its property is `FrozenTemplateFallsBack`. |
| `InputFieldParsing.InputFieldParser.FrozenTemplateFallsBack` | packages/core/src/parsers/inputFieldParser/InputFieldParser.ts:146-148 | As written, a declaration that overlays a path or property on a registered template's bind target comes back as the `INVALID` fallback, holding only the thrown error. |
| `InputFieldParsing.InputFieldParser.FrozenTemplateOverlaid` | packages/core/src/parsers/inputFieldParser/InputFieldParser.ts:139-151 | The same declaration under `FromString` keeps its text and gets the template's bind target with its own path and property laid over it, its own field type when it has one, and the template's errors followed by its own. |
| `Signals.Notifier.constructor` | src/utils/Signal.ts:16-18 | A new notifier has no listeners and has made no calls. |
| `Signals.Notifier.RegisterListener` | src/utils/Signal.ts:20-27 | The listener is appended at the end under a fresh id, one no registered listener has. The listeners already registered keep their places, and no call is made. |
| `Signals.UnregisterUndoesRegister` | src/utils/Signal.ts:20-35 | Unregistering the id a listener was just registered under restores the previous listener list. |
| `Signals.Unregistered` | src/utils/Signal.ts:34 | The `filter` of the listener list by id. It never lengthens the list; its properties are the `Unregister…` rows below. |
| `Signals.Notifier.UnregisterListenerById` | src/utils/Signal.ts:33-35 | The listener list becomes `Unregistered` of the old one; ids stay distinct and no call is made. |
| `Signals.Notifier.UnregisterListener` | src/utils/Signal.ts:29-31 | Unregisters the listeners registered under the given listener's id. |
| `Signals.UnregisteredMembers` | src/utils/Signal.ts:33-35 | Unregistering an id keeps exactly the listeners with another id. |
| `Signals.UnregisteredDistinct` | src/utils/Signal.ts:33-35 | Unregistering keeps ids distinct. |
| `Signals.UnregisterAbsent` | src/utils/Signal.ts:33-35 | Unregistering an id no listener has changes nothing. |
| `Signals.UnregisterIdempotent` | src/utils/Signal.ts:33-35 | Unregistering the same id twice is unregistering it once. |
| `Signals.UnregisterHead` | src/utils/Signal.ts:33-35 | With distinct ids, unregistering the first listener's id leaves the rest of the list. |
| `Signals.UnregisterRemovesOne` | src/utils/Signal.ts:33-35 | With distinct ids, unregistering the id of the listener at position `k` removes that one listener and keeps all others in order. |
| `Signals.CallsOf` | src/utils/Signal.ts:38-41 | The calls of a round: one per listener, so as many as there are listeners. `CallsOfAt` states which listener and value each call has. |
| `Signals.CallsOfAt` | src/utils/Signal.ts:37-42 | The `k`-th call of a round goes to the `k`-th listener, with the round's value. |
| `Signals.Notifier.Dispatch` | src/utils/Signal.ts:38-41 | One callback invocation. The call is logged. An `Unregister` callback removes its victim's id from this notifier. A `Recompute` callback sets its computed signal to its function of the value: the signal's state becomes `Notified` of its old state, so its own listeners are called. No computed signal with another notifier changes state, nothing in the footprint but this notifier and the recomputed signal with its notifier changes, and the notifier's invariant is kept. |
| `Signals.Notifier.NotifyOne` | src/utils/Signal.ts:38-41 | One iteration of the round. If the calls, the listener list and the computed signals' states match the first `i` listeners of the round's list, they match the first `i + 1` afterwards: the `i`-th listener's computed signal has been notified, and the signals of later listeners are untouched. |
| `Signals.Notifier.NotifyListeners` | src/utils/Signal.ts:37-42 | Every listener registered when the round starts is called once, in registration order, with the value, including one that a callback of the round unregisters. The listener list ends as the round's callbacks leave it. Each computed signal on the list ends in `Notified` of its state at the start: it holds its function of the value, has called its own listeners with it, and its listener list ends as their callbacks leave it. No other object in the footprint changes. |
| `Signals.AfterCallbacks` | src/utils/Signal.ts:33-41 | The listener list after a round's callbacks have run in order, each applying its effect to the list so far. It is a definition; its properties are `AfterCallbacksRemoves`, `AfterCallbacksKeeps` and `RemovedMidDispatchStillCalled`. |
| `Signals.Notified` | src/utils/Signal.ts:91-95 | A computed signal's state after it is set to a value: it holds the value, its calls gain one call per listener with that value, and its listener list is what its listeners' callbacks leave. The notification contracts are stated with it. |
| `Signals.AfterCallbacksRemoves` | src/utils/Signal.ts:33-42 | Callbacks during a round only remove listeners, and keep ids distinct. A listener whose id some callback unregistered is gone by the end. |
| `Signals.AfterCallbacksKeeps` | src/utils/Signal.ts:33-42 | A round without `Unregister` callbacks leaves the listener list as it was. |
| `Signals.RemovedMidDispatchStillCalled` | src/utils/Signal.ts:33-42 | A listener unregistered by a callback of the same round is still called in that round, and is gone once the round ends. |
| `Signals.Signal.constructor` | src/utils/Signal.ts:57-60 | A new signal holds the given value and its notifier has no listeners. |
| `Signals.Signal.Set` | src/utils/Signal.ts:66-70 | Stores the value, then notifies every listener with it, even when the value did not change. The post-state is the one `NotifyListeners` promises, including the downstream notification of every computed signal on the list. |
| `Signals.ComputedSignal.constructor` | src/utils/Signal.ts:78-85 | Starts from `compute` of the dependency's current value, with a notifier of its own that has no listeners. It appends exactly one listener to the dependency, `DependencyListener()`, which recomputes this signal under a fresh id. The dependency makes no call and stays valid. |
| `Signals.ComputedSignal.Set` | src/utils/Signal.ts:91-95 | Stores the value, then notifies this signal's own listeners with it, all of them, in order: its state becomes `Notified` of its old state. |
| `Signals.ComputedSignal.Destroy` | src/utils/Signal.ts:97-99 | Unregisters this signal's listener from its dependency. With distinct ids it removes exactly that listener, and the others keep their order. The dependency makes no call and keeps its id counter. |
| `Signals.DestroyScenario` | src/utils/Signal.ts:57-99 | A computed signal doubling a signal set from 5 to 7 holds 14. After `destroy` the signal has no listeners, and setting it to 9 leaves the computed signal at 14. |

## Left out

- The nom grammars (`INPUT_FIELD_FULL_DECLARATION`, `TEMPLATE_INPUT_FIELD_FULL_DECLARATION`), `runParser` and the bind target parser are collaborators. They are parameters of the parser, not modelled.
- `validate`, `fromStringAndValidate` and `fromSimpleDeclarationAndValidate` hand over to the declaration validator, which is not part of this model.
- `structuredClone` in `partialToFullDeclaration` is not modelled, because declarations are immutable values here.
- `InputFieldParsing.InputFieldParser.FromStringAsWritten`: keeps the name token objects the grammar returns, where `structuredClone` (line 113) gives every parsed declaration tokens of its own. The model therefore does not establish that separately parsed declarations hold distinct tokens. That fact is the premise (`UniqueKeys` over both argument lists) of `AsWrittenKeepsEveryArgument` and `AsWrittenKeepsNameClash`, and a grammar that shares one token object between two parses makes this member drop an argument the source keeps. `FullDeclaration` and `ParseTemplateString` keep the grammar's tokens in the same way. `deepFreeze` is in `Utils.ts`, which is not part of this model; it is taken to freeze the template and every object it holds.
- `InputFieldParsing.InputFieldParser.Merge`: compares argument names by their string values, not by name token object as line 161 does, so `Merge`, and through it `ApplyTemplate` and `FromString`, model the corrected de-duplication. The list as written is `ArgumentsAsWritten` (see Findings).
- `InputFieldParsing.InputFieldParser.ApplyTemplate`: computes a new bind target rather than writing into the frozen template's, so it and `FromString` model the intended merge. The throw the write causes as written, and the `INVALID` result `fromString` makes of it, are modelled by `ApplyTemplateAsWritten` and `FromStringAsWritten` (see Findings). Aliasing of the bind target object between declarations is not captured.
- `applyTemplate` adds its warning to the declaration's own error collection object. The model returns a declaration with the longer error list, so sharing of that collection is not captured.
- An error collection's origin name (`'InputField'` and the like) is not modelled; an error collection is its sequence of errors.
- Errors thrown inside `fromString`'s `try` block other than the grammar's and the frozen-template write are not modelled. The text the runtime gives the `TypeError`, and what the error collection records for an error that is not the parser's own, are not modelled: `FrozenWriteError` stands for it.
- `getUUID` is replaced by a per-notifier counter (`nextId`). This keeps the property the code relies on, that a new id differs from every registered one.
- Callbacks are limited to the three kinds above. A callback that registers a listener, sets a signal re-entrantly or throws is not modelled. In particular, a listener registered during a round before any unregistration would be pushed onto the array being iterated and called in the same round; the model does not capture this.
- `ComputedSignal<R, T>` with `R` different from `T` is not modelled: one value type `V` is used throughout.
- A computed signal whose dependency is itself a computed signal (`SignalLike`) is not modelled; the dependency is a `Signal`.
- `Signals.ComputedSignal.Set`: does not state what happens to other computed signals, because in this model no computed signal depends on a computed signal.

## Findings

| source | as written | input that shows it | evidently intended | confidence | as-written member | corrected member |
|---|---|---|---|---|---|---|
| packages/core/src/parsers/inputFieldParser/InputFieldParser.ts:161 | Duplicates are detected with `x.name === currentValue.name`, which compares the name token objects. `structuredClone` (line 113) gives every parsed declaration token objects of its own, and a converted argument gets a new token (line 84), so no argument is ever dropped. The model takes these distinct tokens as the premise of the as-written lemmas rather than deriving them (see Left out). | A template declaring `title(a)` applied to a declaration declaring `title(b)`: the merged declaration holds both `title` arguments. | Compare the names' string values, so that the override's argument replaces the template's of the same name. | not executed | `InputFieldParsing.AsWrittenKeepsNameClash` | `InputFieldParsing.MergeOverrideWins` |
| packages/core/src/parsers/inputFieldParser/InputFieldParser.ts:146-148 | `applyTemplate` passes the registered template as `merge`'s base, and `merge` assigns the override's path and property to the base's bind target. Registered templates are deep-frozen (line 210), so in strict-mode module code the assignment throws a `TypeError`, and `fromString` catches it and returns the `INVALID` fallback. | A registered template `t` whose bind target is `note#a`, and a declaration that names `t` and binds to `b`: it parses to the fallback holding only the `TypeError`. | The declaration's path and property laid over a copy of the template's bind target, as `merge` does for unfrozen bases. | not executed; assumes `deepFreeze` freezes nested objects | `InputFieldParsing.InputFieldParser.FrozenTemplateFallsBack` | `InputFieldParsing.InputFieldParser.FrozenTemplateOverlaid` |

=== FILE: declarations.dfy ===
/**
 * The data model of unvalidated input field declarations: tokens, arguments,
 * bind targets, error collections and templates.
 */
module Declarations {
  import opened Wrappers

  /** A range of characters in the declaration string. */
  datatype Span = Span(from: nat, to: nat)

  /** A parsed value together with where it came from; `position` is absent for synthesised tokens. */
  datatype Token<+T> = Token(value: T, position: Option<Span>)

  /**
   * The name token of an argument. It is an object, as in the source: two name
   * tokens holding the same string are still two different tokens, and `==`
   * on them is the source's `===`.
   */
  class NameToken {
    const value: string
    const position: Option<Span>

    constructor (value: string, position: Option<Span>)
      ensures this.value == value && this.position == position
    {
      this.value := value;
      this.position := position;
    }
  }

  /** The kind of input field; `Invalid` marks a declaration whose text could not be parsed. */
  datatype FieldType = Invalid | Kind(tag: string)

  /** An argument such as `title(My Title)`: a name and a list of value tokens. */
  datatype Argument = Argument(name: NameToken, value: seq<Token<string>>)

  /** Where a field stores its value, before resolution against the current note. */
  datatype BindTarget = BindTarget(
    storagePath: Option<string>,
    storageProp: Option<seq<string>>,
    scopeRelative: bool)

  datatype ErrorLevel = Warning | Error

  /** One entry of an error collection. */
  datatype MetaError = MetaError(
    level: ErrorLevel,
    origin: string,
    message: string,
    source: Option<string>,
    position: Option<Span>,
    helpLinks: seq<string>)

  /**
   * An unvalidated input field declaration. The error collection is an
   * append-only sequence.
   */
  datatype Declaration = Declaration(
    declarationString: Option<string>,
    inputFieldType: Option<Token<FieldType>>,
    bindTarget: Option<BindTarget>,
    arguments: seq<Argument>,
    templateName: Option<Token<string>>,
    errors: seq<MetaError>)

  /** What the grammar produces: a declaration without its text and its error collection. */
  datatype PartialDeclaration = PartialDeclaration(
    inputFieldType: Option<Token<FieldType>>,
    bindTarget: Option<BindTarget>,
    arguments: seq<Argument>,
    templateName: Option<Token<string>>)

  /** A template as configured in the settings: a name and the declaration text. */
  datatype TemplateSource = TemplateSource(name: string, declaration: string)

  /** A parsed template held by the registry. */
  datatype Template = Template(name: string, template: Declaration)

  /** The plain-data form of an argument: a name and its values as strings. */
  datatype SimpleArgument = SimpleArgument(name: string, value: seq<string>)

  /** The plain-data form of a bind target, converted by the bind target parser. */
  datatype SimpleBindTarget = SimpleBindTarget(storagePath: Option<string>, property: seq<string>)

  /** The plain-data form of a declaration, built by code rather than parsed. */
  datatype SimpleDeclaration = SimpleDeclaration(
    inputFieldType: Option<FieldType>,
    bindTarget: Option<SimpleBindTarget>,
    arguments: Option<seq<SimpleArgument>>)
}

=== FILE: dedup.dfy ===
/**
 * De-duplication of a sequence by a key, keeping the first element with each
 * key: the `reduce` that builds the argument list of a merged declaration.
 */
module ArgumentDedup {

  /** Some element of `acc` has key `k`. */
  predicate HasKey<T, K(==)>(acc: seq<T>, k: K, key: T -> K)
  {
    exists i :: 0 <= i < |acc| && key(acc[i]) == k
  }

  /** No element before index `i` shares the key of `xs[i]`. */
  ghost predicate IsFirst<T, K>(xs: seq<T>, i: int, key: T -> K)
    requires 0 <= i < |xs|
  {
    forall j :: 0 <= j < i ==> key(xs[j]) != key(xs[i])
  }

  /** No two elements of `xs` share a key. */
  ghost predicate UniqueKeys<T, K>(xs: seq<T>, key: T -> K)
  {
    forall i, j :: 0 <= i < j < |xs| ==> key(xs[i]) != key(xs[j])
  }

  /** `r` is `s` with some elements deleted and the rest in their original order. */
  ghost predicate IsSubsequence<T>(r: seq<T>, s: seq<T>)
    decreases |s|
  {
    if r == [] then true
    else if s == [] then false
    else if r[|r| - 1] == s[|s| - 1] then IsSubsequence(r[..|r| - 1], s[..|s| - 1])
    else IsSubsequence(r, s[..|s| - 1])
  }

  /**
   * Folds over `xs` from the left: an element is appended to the accumulator
   * unless the accumulator already holds an element with the same key.
   */
  function Dedup<T, K(==)>(xs: seq<T>, key: T -> K): seq<T>
    decreases |xs|
  {
    if xs == [] then []
    else
      var acc := Dedup(xs[..|xs| - 1], key);
      if HasKey(acc, key(xs[|xs| - 1]), key) then acc else acc + [xs[|xs| - 1]]
  }

  /**
   * The result of `Dedup` is exactly the first occurrences of the keys of `xs`:
   * each first occurrence is kept, each kept element is a first occurrence,
   * every key of `xs` appears, and no key appears twice.
   */
  lemma {:induction false} DedupFirstOccurrences<T, K>(xs: seq<T>, key: T -> K)
    ensures var r := Dedup(xs, key);
      && UniqueKeys(r, key)
      && (forall i :: 0 <= i < |xs| ==> HasKey(r, key(xs[i]), key))
      && (forall i :: 0 <= i < |xs| && IsFirst(xs, i, key) ==> xs[i] in r)
      && (forall y :: y in r ==> exists i :: 0 <= i < |xs| && IsFirst(xs, i, key) && xs[i] == y)
    decreases |xs|
  {
    if xs != [] {
      var p, c := xs[..|xs| - 1], xs[|xs| - 1];
      assert xs == p + [c];
      var acc := Dedup(p, key);
      DedupFirstOccurrences(p, key);
      var r := Dedup(xs, key);
      forall i | 0 <= i < |p| && IsFirst(p, i, key)
        ensures IsFirst(xs, i, key)
      {
        assert forall j :: 0 <= j < i ==> xs[j] == p[j];
      }
      if HasKey(acc, key(c), key) {
        assert r == acc;
        var k :| 0 <= k < |acc| && key(acc[k]) == key(c);
        assert acc[k] in acc;
        var i' :| 0 <= i' < |p| && IsFirst(p, i', key) && p[i'] == acc[k];
        assert !IsFirst(xs, |xs| - 1, key) by {
          assert key(xs[i']) == key(xs[|xs| - 1]);
        }
        forall y | y in r
          ensures exists i :: 0 <= i < |xs| && IsFirst(xs, i, key) && xs[i] == y
        {
          var i :| 0 <= i < |p| && IsFirst(p, i, key) && p[i] == y;
          assert xs[i] == y;
        }
        forall i | 0 <= i < |xs| && IsFirst(xs, i, key)
          ensures xs[i] in r
        {
          assert i < |p|;
          assert IsFirst(p, i, key);
        }
      } else {
        assert r == acc + [c];
        assert IsFirst(xs, |xs| - 1, key) by {
          forall j | 0 <= j < |xs| - 1
            ensures key(xs[j]) != key(c)
          {
            assert HasKey(acc, key(p[j]), key);
          }
        }
        forall i | 0 <= i < |xs|
          ensures HasKey(r, key(xs[i]), key)
        {
          if i < |p| {
            var k :| 0 <= k < |acc| && key(acc[k]) == key(p[i]);
            assert r[k] == acc[k];
          } else {
            assert r[|acc|] == xs[i];
          }
        }
        forall y | y in r
          ensures exists i :: 0 <= i < |xs| && IsFirst(xs, i, key) && xs[i] == y
        {
          if y in acc {
            var i :| 0 <= i < |p| && IsFirst(p, i, key) && p[i] == y;
            assert xs[i] == y;
          } else {
            assert y == xs[|xs| - 1];
          }
        }
        forall i | 0 <= i < |xs| && IsFirst(xs, i, key)
          ensures xs[i] in r
        {
          if i < |p| {
            assert IsFirst(p, i, key);
          }
        }
        forall i, j | 0 <= i < j < |r|
          ensures key(r[i]) != key(r[j])
        {
          if j == |acc| {
            assert r[i] == acc[i];
          }
        }
      }
    }
  }

  /** Deleting the last element of a subsequence leaves a subsequence. */
  lemma {:induction false} SubsequenceDropLast<T>(r: seq<T>, s: seq<T>)
    requires r != [] && IsSubsequence(r, s)
    ensures IsSubsequence(r[..|r| - 1], s)
    decreases |s|
  {
    var r' := r[..|r| - 1];
    if r' != [] {
      var s' := s[..|s| - 1];
      if r[|r| - 1] == s[|s| - 1] {
        if r'[|r'| - 1] == s[|s| - 1] {
          SubsequenceDropLast(r', s');
        }
      } else {
        SubsequenceDropLast(r, s');
        if r'[|r'| - 1] == s[|s| - 1] {
          SubsequenceDropLast(r', s');
        }
      }
    }
  }

  /** A subsequence of `s` is a subsequence of `s` extended at the end. */
  lemma SubsequenceExtend<T>(r: seq<T>, s: seq<T>, c: T)
    requires IsSubsequence(r, s)
    ensures IsSubsequence(r, s + [c])
  {
    var s' := s + [c];
    assert s'[..|s'| - 1] == s;
    if r != [] && r[|r| - 1] == c {
      SubsequenceDropLast(r, s);
    }
  }

  /** `Dedup` only deletes elements: what it keeps is in the original order. */
  lemma {:induction false} DedupSubsequence<T, K>(xs: seq<T>, key: T -> K)
    ensures IsSubsequence(Dedup(xs, key), xs)
    decreases |xs|
  {
    if xs != [] {
      var p, c := xs[..|xs| - 1], xs[|xs| - 1];
      assert xs == p + [c];
      var acc := Dedup(p, key);
      DedupSubsequence(p, key);
      if HasKey(acc, key(c), key) {
        SubsequenceExtend(acc, p, c);
      } else {
        var r := acc + [c];
        assert r[..|r| - 1] == acc;
      }
    }
  }

  /** When all keys already differ, `Dedup` changes nothing. */
  lemma {:induction false} DedupDistinctKeys<T, K>(xs: seq<T>, key: T -> K)
    requires UniqueKeys(xs, key)
    ensures Dedup(xs, key) == xs
    decreases |xs|
  {
    if xs != [] {
      var p, c := xs[..|xs| - 1], xs[|xs| - 1];
      assert xs == p + [c];
      assert UniqueKeys(p, key);
      DedupDistinctKeys(p, key);
      assert !HasKey(p, key(c), key);
    }
  }
}

=== FILE: input_field_parser.dfy ===
/**
 * The input field parser's handling of declarations around the grammar: the
 * fallback declaration when parsing fails, the template registry, applying a
 * template, merging a template with a declaration, and converting a simple
 * declaration. The grammar itself and the bind target parser are collaborators
 * given to the parser as functions.
 */
module InputFieldParsing {
  import opened Wrappers
  import opened Declarations
  import opened ArgumentDedup

  /** The help link attached to the warning about an unknown template. */
  const TemplatesGuide := "https://mprojectscode.github.io/obsidian-meta-bind-plugin-docs/guides/templates/"

  /** The name of an argument, as a string. */
  function NameKey(a: Argument): string
  {
    a.name.value
  }

  /** The name token of an argument, as an object. */
  function TokenKey(a: Argument): NameToken
  {
    a.name
  }

  /** `partialToFullDeclaration`: the grammar's output with its text and a fresh, empty error collection. */
  function FullDeclaration(p: PartialDeclaration, s: string): Declaration
  {
    Declaration(Some(s), p.inputFieldType, p.bindTarget, p.arguments, p.templateName, [])
  }

  /** The INVALID declaration returned when parsing `s` throws `e`. */
  function Fallback(s: string, e: MetaError): Declaration
  {
    Declaration(Some(s), Some(Token(Invalid, None)), None, [], None, [e])
  }

  /** The warning added to a declaration that names a template the registry does not hold. */
  function TemplateNotFound(d: Declaration, name: Token<string>): MetaError
  {
    MetaError(
      Warning,
      "Input Field Parser",
      "Invalid template name. Could not find template with name '" + name.value + "'",
      d.declarationString,
      name.position,
      [TemplatesGuide])
  }

  /**
   * The bind target of a merged declaration: the override's when the base has
   * none, otherwise the base's with the override's path and property laid over
   * it one by one.
   */
  function OverlaidBindTarget(base: Option<BindTarget>, over: Option<BindTarget>): Option<BindTarget>
  {
    if base.None? then over
    else
      var withPath :=
        if over.Some? && over.value.storagePath.Some? then base.value.(storagePath := over.value.storagePath)
        else base.value;
      Some(if over.Some? && over.value.storageProp.Some? then withPath.(storageProp := over.value.storageProp)
           else withPath)
  }

  /**
   * The specification of `merge`: the override's text, the override's field
   * type if it has one, the overlaid bind target, the arguments of override and
   * base de-duplicated by name keeping the first, no template name, and the
   * base's errors followed by the override's.
   */
  function Merged(base: Declaration, over: Declaration): (r: Declaration)
    ensures UniqueKeys(r.arguments, NameKey)
    ensures IsSubsequence(r.arguments, over.arguments + base.arguments)
    ensures forall i :: 0 <= i < |over.arguments + base.arguments| ==>
      HasKey(r.arguments, NameKey((over.arguments + base.arguments)[i]), NameKey)
  {
    var all := over.arguments + base.arguments;
    DedupFirstOccurrences(all, NameKey);
    DedupSubsequence(all, NameKey);
    Declaration(
      over.declarationString,
      if over.inputFieldType.Some? then over.inputFieldType else base.inputFieldType,
      OverlaidBindTarget(base.bindTarget, over.bindTarget),
      Dedup(all, NameKey),
      None,
      base.errors + over.errors)
  }

  /**
   * Merging lets the override win every name clash: a merged argument whose
   * name the override uses is one of the override's own arguments.
   */
  lemma MergeOverrideWins(base: Declaration, over: Declaration)
    ensures forall y :: y in Merged(base, over).arguments && HasKey(over.arguments, NameKey(y), NameKey) ==>
      y in over.arguments
  {
    var all := over.arguments + base.arguments;
    var r := Dedup(all, NameKey);
    assert Merged(base, over).arguments == r;
    DedupFirstOccurrences(all, NameKey);
    forall y | y in r && HasKey(over.arguments, NameKey(y), NameKey)
      ensures y in over.arguments
    {
      var i :| 0 <= i < |all| && IsFirst(all, i, NameKey) && all[i] == y;
      FirstFromOverride(over.arguments, base.arguments, i);
    }
  }

  /** The first argument with a name the override uses is an override argument. */
  lemma FirstFromOverride(over: seq<Argument>, base: seq<Argument>, i: nat)
    requires i < |over + base| && IsFirst(over + base, i, NameKey)
    requires HasKey(over, NameKey((over + base)[i]), NameKey)
    ensures (over + base)[i] in over
  {
    var all := over + base;
    var j :| 0 <= j < |over| && NameKey(over[j]) == NameKey(all[i]);
    assert all[j] == over[j];
    assert i <= j;
  }

  /**
   * The base supplies exactly the names the override lacks: a merged argument
   * whose name the override does not use comes from the base, and every base
   * argument whose name the override does not use is represented by a base
   * argument of that name.
   */
  lemma MergeBaseFillsGaps(base: Declaration, over: Declaration)
    ensures forall y :: y in Merged(base, over).arguments && !HasKey(over.arguments, NameKey(y), NameKey) ==>
      y in base.arguments
    ensures forall b :: b in base.arguments && !HasKey(over.arguments, NameKey(b), NameKey) ==>
      exists y :: y in Merged(base, over).arguments && y in base.arguments && NameKey(y) == NameKey(b)
  {
    assert Merged(base, over).arguments == Dedup(over.arguments + base.arguments, NameKey);
    KeptFromBase(over.arguments, base.arguments);
    BaseRepresented(over.arguments, base.arguments);
  }

  /** A kept argument whose name the override does not use is a base argument. */
  lemma KeptFromBase(over: seq<Argument>, base: seq<Argument>)
    ensures forall y :: y in Dedup(over + base, NameKey) && !HasKey(over, NameKey(y), NameKey) ==> y in base
  {
    var r := Dedup(over + base, NameKey);
    DedupFirstOccurrences(over + base, NameKey);
    forall y | y in r && !HasKey(over, NameKey(y), NameKey)
      ensures y in base
    {
      FromBase(over, base, y);
    }
  }

  /** Every base name the override does not use is kept, by a base argument. */
  lemma BaseRepresented(over: seq<Argument>, base: seq<Argument>)
    ensures forall b :: b in base && !HasKey(over, NameKey(b), NameKey) ==>
      exists y :: y in Dedup(over + base, NameKey) && y in base && NameKey(y) == NameKey(b)
  {
    var all := over + base;
    var r := Dedup(all, NameKey);
    DedupFirstOccurrences(all, NameKey);
    forall b | b in base && !HasKey(over, NameKey(b), NameKey)
      ensures exists y :: y in r && y in base && NameKey(y) == NameKey(b)
    {
      var k :| 0 <= k < |base| && base[k] == b;
      assert all[|over| + k] == b;
      var m :| 0 <= m < |r| && NameKey(r[m]) == NameKey(b);
      assert r[m] in r;
      FromBase(over, base, r[m]);
    }
  }

  /** A kept argument whose name the override does not use is a base argument. */
  lemma FromBase(over: seq<Argument>, base: seq<Argument>, y: Argument)
    requires !HasKey(over, NameKey(y), NameKey)
    requires exists i :: 0 <= i < |over + base| && (over + base)[i] == y
    ensures y in base
  {
    var all := over + base;
    var i :| 0 <= i < |all| && all[i] == y;
    assert i >= |over|;
    assert all[i] == base[i - |over|];
  }

  /**
   * The argument list that `merge` builds as written: an argument is dropped
   * only when an earlier one has the very same name token object.
   */
  function ArgumentsAsWritten(base: Declaration, over: Declaration): seq<Argument>
  {
    Dedup(over.arguments + base.arguments, TokenKey)
  }

  /**
   * The parser creates a new token object for every argument name, so as
   * written `merge` drops nothing: it returns the override's arguments followed
   * by all of the base's.
   */
  lemma AsWrittenKeepsEveryArgument(base: Declaration, over: Declaration)
    requires UniqueKeys(over.arguments + base.arguments, TokenKey)
    ensures ArgumentsAsWritten(base, over) == over.arguments + base.arguments
  {
    DedupDistinctKeys(over.arguments + base.arguments, TokenKey);
  }

  /**
   * Hence, as written, when override and base both set an argument of the same
   * name, the merged declaration carries that name twice.
   */
  lemma AsWrittenKeepsNameClash(base: Declaration, over: Declaration, i: nat, j: nat)
    requires UniqueKeys(over.arguments + base.arguments, TokenKey)
    requires i < |over.arguments| && j < |base.arguments|
    requires NameKey(over.arguments[i]) == NameKey(base.arguments[j])
    ensures !UniqueKeys(ArgumentsAsWritten(base, over), NameKey)
  {
    AsWrittenKeepsEveryArgument(base, over);
    var r := ArgumentsAsWritten(base, over);
    assert r[i] == over.arguments[i] && r[|over.arguments| + j] == base.arguments[j];
  }

  /** `Array.prototype.find` over the registry: the template of the first entry named `name`. */
  function FindTemplate(ts: seq<Template>, name: string): (r: Option<Declaration>)
    ensures r.None? <==> forall i :: 0 <= i < |ts| ==> ts[i].name != name
    ensures r.Some? ==> exists i :: (0 <= i < |ts| && ts[i].name == name && r.value == ts[i].template &&
      forall j :: 0 <= j < i ==> ts[j].name != name)
  {
    if ts == [] then None
    else if ts[0].name == name then Some(ts[0].template)
    else
      var r := FindTemplate(ts[1..], name);
      assert forall i :: 1 <= i < |ts| ==> ts[i] == ts[1..][i - 1];
      if r.Some? then
        var i :| 0 <= i < |ts[1..]| && ts[1..][i].name == name && r.value == ts[1..][i].template
          && forall j :: 0 <= j < i ==> ts[1..][j].name != name;
        assert ts[i + 1] == ts[1..][i];
        r
      else r
  }

  /** The errors of the registered templates, concatenated in registry order. */
  function TemplateErrors(ts: seq<Template>): seq<MetaError>
  {
    if ts == [] then [] else TemplateErrors(ts[..|ts| - 1]) + ts[|ts| - 1].template.errors
  }

  /** The input field parser: the grammars it runs, the bind target converter it calls, and its template registry. */
  class InputFieldParser {
    var templates: seq<Template>
    /** The full declaration grammar run on a string: a partial declaration, or the error it throws. */
    const fullGrammar: string -> Result<PartialDeclaration, MetaError>
    /** The template declaration grammar run on a string. */
    const templateGrammar: string -> Result<PartialDeclaration, MetaError>
    /** The bind target parser's conversion of a simple bind target. */
    const bindTargetFromSimple: SimpleBindTarget -> BindTarget

    constructor (
      fullGrammar: string -> Result<PartialDeclaration, MetaError>,
      templateGrammar: string -> Result<PartialDeclaration, MetaError>,
      bindTargetFromSimple: SimpleBindTarget -> BindTarget)
      ensures templates == []
      ensures this.fullGrammar == fullGrammar && this.templateGrammar == templateGrammar
      ensures this.bindTargetFromSimple == bindTargetFromSimple
    {
      this.fullGrammar := fullGrammar;
      this.templateGrammar := templateGrammar;
      this.bindTargetFromSimple := bindTargetFromSimple;
      templates := [];
    }

    /** The template registered under `name`, if any. */
    function GetTemplate(name: string): Option<Declaration>
      reads this
    {
      FindTemplate(templates, name)
    }

    /**
     * What `applyTemplate` returns for `d` with the current registry: the
     * specification `ApplyTemplate` is proved against and `FromString`'s
     * contract is stated with.
     */
    function TemplateApplied(d: Declaration): Declaration
      reads this
    {
      match d.templateName
      case None => d
      case Some(name) =>
        match GetTemplate(name.value)
        case None => d.(errors := d.errors + [TemplateNotFound(d, name)])
        case Some(t) => Merged(t, d)
    }

    /**
     * Parses a declaration string. When the grammar throws, the result is an
     * INVALID declaration that keeps the text and holds the error; otherwise
     * the grammar's declaration has its template applied.
     */
    method FromString(s: string) returns (r: Declaration)
      ensures r.declarationString == Some(s)
      ensures fullGrammar(s).Failure? ==> r == Fallback(s, fullGrammar(s).error)
      ensures fullGrammar(s).Success? ==> r == TemplateApplied(FullDeclaration(fullGrammar(s).value, s))
    {
      var outcome := fullGrammar(s);
      match outcome
      case Success(partial) =>
        r := ApplyTemplate(FullDeclaration(partial, s));
      case Failure(e) =>
        r := Fallback(s, e);
    }

    /**
     * Converts a simple declaration: no text, the field type and bind target
     * carried over when present, and every argument mapped one-to-one, in
     * order, onto a new, distinct name token and value tokens without positions.
     */
    method FromSimpleDeclaration(simple: SimpleDeclaration) returns (r: Declaration)
      ensures r.declarationString == None && r.templateName == None && r.errors == []
      ensures r.inputFieldType == if simple.inputFieldType.Some? then Some(Token(simple.inputFieldType.value, None)) else None
      ensures r.bindTarget == if simple.bindTarget.Some? then Some(bindTargetFromSimple(simple.bindTarget.value)) else None
      ensures var args := if simple.arguments.Some? then simple.arguments.value else [];
        |r.arguments| == |args| && forall i :: 0 <= i < |args| ==> Converted(r.arguments[i], args[i])
      ensures UniqueKeys(r.arguments, TokenKey)
      ensures forall k :: 0 <= k < |r.arguments| ==> fresh(r.arguments[k].name)
    {
      var args := if simple.arguments.Some? then simple.arguments.value else [];
      var converted: seq<Argument> := [];
      var i := 0;
      while i < |args|
        invariant 0 <= i <= |args|
        invariant |converted| == i
        invariant forall k :: 0 <= k < i ==> Converted(converted[k], args[k])
        invariant UniqueKeys(converted, TokenKey)
        invariant forall k :: 0 <= k < i ==> fresh(converted[k].name)
      {
        var name := new NameToken(args[i].name, None);
        var values := seq(|args[i].value|, k requires 0 <= k < |args[i].value| => Token(args[i].value[k], None));
        converted := converted + [Argument(name, values)];
        i := i + 1;
      }
      r := Declaration(
        None,
        if simple.inputFieldType.Some? then Some(Token(simple.inputFieldType.value, None)) else None,
        if simple.bindTarget.Some? then Some(bindTargetFromSimple(simple.bindTarget.value)) else None,
        converted,
        None,
        []);
    }

    /**
     * Merges a declaration into a base one. The override's text always wins,
     * its field type wins when it has one, the bind target is laid over the
     * base's field by field, the arguments are those of `Merged`, and the
     * errors are the base's followed by the override's.
     */
    method Merge(base: Declaration, over: Declaration) returns (r: Declaration)
      ensures r == Merged(base, over)
      ensures r.declarationString == over.declarationString
      ensures r.inputFieldType == if over.inputFieldType.Some? then over.inputFieldType else base.inputFieldType
      ensures base.bindTarget.None? ==> r.bindTarget == over.bindTarget
      ensures base.bindTarget.Some? ==> (
        && r.bindTarget.Some?
        && r.bindTarget.value.scopeRelative == base.bindTarget.value.scopeRelative
        && r.bindTarget.value.storagePath ==
             (if over.bindTarget.Some? && over.bindTarget.value.storagePath.Some? then over.bindTarget.value.storagePath
              else base.bindTarget.value.storagePath)
        && r.bindTarget.value.storageProp ==
             (if over.bindTarget.Some? && over.bindTarget.value.storageProp.Some? then over.bindTarget.value.storageProp
              else base.bindTarget.value.storageProp))
      ensures r.templateName == None
      ensures r.errors == base.errors + over.errors
    {
      var bindTarget: Option<BindTarget>;
      if base.bindTarget.None? {
        bindTarget := over.bindTarget;
      } else {
        var target := base.bindTarget.value;
        if over.bindTarget.Some? && over.bindTarget.value.storagePath.Some? {
          target := target.(storagePath := over.bindTarget.value.storagePath);
        }
        if over.bindTarget.Some? && over.bindTarget.value.storageProp.Some? {
          target := target.(storageProp := over.bindTarget.value.storageProp);
        }
        bindTarget := Some(target);
      }

      var all := over.arguments + base.arguments;
      var args: seq<Argument> := [];
      var i := 0;
      while i < |all|
        invariant 0 <= i <= |all|
        invariant args == Dedup(all[..i], NameKey)
      {
        var current := all[i];
        var j := 0;
        while j < |args| && args[j].name.value != current.name.value
          invariant 0 <= j <= |args|
          invariant forall k :: 0 <= k < j ==> NameKey(args[k]) != NameKey(current)
        {
          j := j + 1;
        }
        assert all[..i + 1][..i] == all[..i];
        if j == |args| {
          args := args + [current];
        }
        i := i + 1;
      }
      assert all[..|all|] == all;

      r := Declaration(
        over.declarationString,
        if over.inputFieldType.Some? then over.inputFieldType else base.inputFieldType,
        bindTarget,
        args,
        None,
        base.errors + over.errors);
    }

    /** Parses a template's declaration string; on failure the same INVALID fallback as `FromString`. */
    function ParseTemplateString(s: string): (r: Declaration)
      ensures r.declarationString == Some(s)
      ensures templateGrammar(s).Failure? ==> r == Fallback(s, templateGrammar(s).error)
      ensures templateGrammar(s).Success? ==> r.errors == [] && r.arguments == templateGrammar(s).value.arguments
    {
      match templateGrammar(s)
      case Success(partial) => FullDeclaration(partial, s)
      case Failure(e) => Fallback(s, e)
    }

    /**
     * Replaces the registry with one entry per configured template, same names
     * and order, and returns all their parse errors in that order. Looking up
     * a configured name afterwards finds the first template of that name.
     */
    method ParseTemplates(sources: seq<TemplateSource>) returns (errors: seq<MetaError>)
      modifies this`templates
      ensures |templates| == |sources|
      ensures forall i :: 0 <= i < |sources| ==>
        templates[i] == Template(sources[i].name, ParseTemplateString(sources[i].declaration))
      ensures errors == TemplateErrors(templates)
      ensures forall i :: 0 <= i < |sources| && (forall j :: 0 <= j < i ==> sources[j].name != sources[i].name) ==>
        GetTemplate(sources[i].name) == Some(ParseTemplateString(sources[i].declaration))
    {
      templates := [];
      errors := [];
      var i := 0;
      while i < |sources|
        invariant 0 <= i <= |sources|
        invariant |templates| == i
        invariant forall k :: 0 <= k < i ==>
          templates[k] == Template(sources[k].name, ParseTemplateString(sources[k].declaration))
        invariant errors == TemplateErrors(templates)
      {
        var declaration := ParseTemplateString(sources[i].declaration);
        errors := errors + declaration.errors;
        var entry := Template(sources[i].name, declaration);
        assert (templates + [entry])[..|templates|] == templates;
        templates := templates + [entry];
        i := i + 1;
      }
      forall i | 0 <= i < |sources| && (forall j :: 0 <= j < i ==> sources[j].name != sources[i].name)
        ensures GetTemplate(sources[i].name) == Some(ParseTemplateString(sources[i].declaration))
      {
        var found := FindTemplate(templates, sources[i].name);
        assert templates[i].name == sources[i].name;
        var k :| 0 <= k < |templates| && templates[k].name == sources[i].name && found.value == templates[k].template
          && forall j :: 0 <= j < k ==> templates[j].name != sources[i].name;
        assert k == i;
      }
    }

    /**
     * Applies the template `d` names. Without a template name `d` is returned
     * as it is; with an unknown name the result is `d` with exactly one more
     * error, a warning, at the end; with a known name it is the template merged
     * with `d` as the override.
     */
    method ApplyTemplate(d: Declaration) returns (r: Declaration)
      ensures r == TemplateApplied(d)
      ensures d.templateName.None? ==> r == d
      ensures d.templateName.Some? && GetTemplate(d.templateName.value.value).None? ==>
        && r == d.(errors := r.errors)
        && |r.errors| == |d.errors| + 1
        && r.errors[..|d.errors|] == d.errors
        && r.errors[|d.errors|].level == Warning
      ensures d.templateName.Some? && GetTemplate(d.templateName.value.value).Some? ==>
        r == Merged(GetTemplate(d.templateName.value.value).value, d)
    {
      if d.templateName.None? {
        return d;
      }
      var name := d.templateName.value;
      var template := GetTemplate(name.value);
      if template.None? {
        r := d.(errors := d.errors + [TemplateNotFound(d, name)]);
        assert r.errors[..|d.errors|] == d.errors;
        return;
      }
      r := Merge(template.value, d);
    }

    /**
     * `applyTemplate` as written. Registered templates are deep-frozen, and
     * `merge` writes the override's path and property into its base's bind
     * target object, so merging into a template throws exactly when both have
     * a bind target and the declaration sets a path or a property. Otherwise
     * it agrees with `TemplateApplied`, except that the merged arguments are
     * `ArgumentsAsWritten`, de-duplicated by name token object.
     */
    function ApplyTemplateAsWritten(d: Declaration): Result<Declaration, MetaError>
      reads this
    {
      match d.templateName
      case None => Success(d)
      case Some(name) =>
        match GetTemplate(name.value)
        case None => Success(d.(errors := d.errors + [TemplateNotFound(d, name)]))
        case Some(t) =>
          if WritesFrozen(t, d) then Failure(FrozenWriteError)
          else Success(Merged(t, d).(arguments := ArgumentsAsWritten(t, d)))
    }

    /** `fromString` as written: an error thrown while applying the template is caught like a grammar error. */
    function FromStringAsWritten(s: string): Declaration
      reads this
    {
      match fullGrammar(s)
      case Failure(e) => Fallback(s, e)
      case Success(partial) =>
        match ApplyTemplateAsWritten(FullDeclaration(partial, s))
        case Success(d) => d
        case Failure(e) => Fallback(s, e)
    }

    /**
     * As written, a declaration that names a registered template with a bind
     * target, and sets a path or property of its own, comes back INVALID, with
     * no bind target and no arguments: the write into the frozen template
     * throws and `fromString` catches it.
     */
    lemma FrozenTemplateFallsBack(s: string)
      requires fullGrammar(s).Success?
      requires var d := FullDeclaration(fullGrammar(s).value, s);
        d.templateName.Some? && GetTemplate(d.templateName.value.value).Some? &&
        WritesFrozen(GetTemplate(d.templateName.value.value).value, d)
      ensures FromStringAsWritten(s) == Fallback(s, FrozenWriteError)
    {
    }

    /**
     * The same declaration parsed by `FromString`: the template's bind target
     * with the declaration's path and property laid over it, the declaration's
     * own field type when it has one, and the template's errors followed by the
     * declaration's.
     */
    lemma FrozenTemplateOverlaid(s: string)
      requires fullGrammar(s).Success?
      requires var d := FullDeclaration(fullGrammar(s).value, s);
        d.templateName.Some? && GetTemplate(d.templateName.value.value).Some? &&
        WritesFrozen(GetTemplate(d.templateName.value.value).value, d)
      ensures var d := FullDeclaration(fullGrammar(s).value, s);
        var t := GetTemplate(d.templateName.value.value).value;
        var r := TemplateApplied(d);
        && r.declarationString == Some(s)
        && r.bindTarget.Some?
        && r.bindTarget.value.storagePath ==
             (if d.bindTarget.value.storagePath.Some? then d.bindTarget.value.storagePath else t.bindTarget.value.storagePath)
        && r.bindTarget.value.storageProp ==
             (if d.bindTarget.value.storageProp.Some? then d.bindTarget.value.storageProp else t.bindTarget.value.storageProp)
        && r.inputFieldType == (if d.inputFieldType.Some? then d.inputFieldType else t.inputFieldType)
        && r.errors == t.errors + d.errors
    {
    }
  }

  /**
   * `merge` as written writes into its base's bind target when both
   * declarations have one and the override sets a path or a property.
   */
  predicate WritesFrozen(base: Declaration, over: Declaration)
  {
    && base.bindTarget.Some?
    && over.bindTarget.Some?
    && (over.bindTarget.value.storagePath.Some? || over.bindTarget.value.storageProp.Some?)
  }

  /**
   * The runtime's error for an assignment to a property of a frozen object,
   * as the fallback's error collection holds it.
   */
  const FrozenWriteError := MetaError(Error, "TypeError", "Cannot assign to read only property of a frozen object", None, None, [])

  /** `a` is the conversion of the simple argument `s`: same name, same values, no positions. */
  ghost predicate Converted(a: Argument, s: SimpleArgument)
  {
    && a.name.value == s.name
    && a.name.position == None
    && |a.value| == |s.value|
    && forall k :: 0 <= k < |s.value| ==> a.value[k] == Token(s.value[k], None)
  }
}

=== FILE: signal.dfy ===
/**
 * The observable value cells: a notifier holding an ordered listener list, a
 * signal that stores a value and notifies on every `Set`, and a computed signal
 * that derives its value from a signal through one registered listener.
 *
 * Callbacks are a closed set of kinds. A `Record` callback stands for any
 * client callback without further effect; an `Unregister` callback removes a
 * listener of the notifier that calls it; a `Recompute` callback is the one a
 * computed signal registers on its dependency. Every invocation is logged in
 * the notifier's `calls`.
 */
module Signals {

  datatype Callback<V> =
    | Record(handle: nat)
    | Unregister(handle: nat, victim: nat)
    | Recompute(target: ComputedSignal<V>)

  /** A registered callback and the id it was registered under. */
  datatype Listener<V> = Listener(id: nat, callback: Callback<V>)

  /** One invocation of a listener's callback with a value. */
  datatype Call<V> = Call(listener: nat, value: V)

  /** No two listeners share an id. */
  ghost predicate DistinctIds<V>(ls: seq<Listener<V>>)
  {
    forall i, j :: 0 <= i < j < |ls| ==> ls[i].id != ls[j].id
  }

  /** The listener list after `unregisterListenerById(id)`: every listener with that id filtered out. */
  function Unregistered<V>(ls: seq<Listener<V>>, id: nat): (r: seq<Listener<V>>)
    ensures |r| <= |ls|
  {
    if ls == [] then []
    else if ls[0].id == id then Unregistered(ls[1..], id)
    else [ls[0]] + Unregistered(ls[1..], id)
  }

  /** Unregistering keeps exactly the listeners with another id. */
  lemma {:induction false} UnregisteredMembers<V>(ls: seq<Listener<V>>, id: nat)
    ensures forall l :: l in Unregistered(ls, id) ==> l in ls && l.id != id
    ensures forall l :: l in ls && l.id != id ==> l in Unregistered(ls, id)
  {
    if ls != [] {
      UnregisteredMembers(ls[1..], id);
      assert ls == [ls[0]] + ls[1..];
    }
  }

  /** The listeners after the first keep distinct ids, all other than the first's. */
  lemma DistinctTail<V>(ls: seq<Listener<V>>)
    requires DistinctIds(ls) && ls != []
    ensures DistinctIds(ls[1..])
    ensures forall l :: l in ls[1..] ==> l.id != ls[0].id
  {
    var tail := ls[1..];
    forall i, j | 0 <= i < j < |tail|
      ensures tail[i].id != tail[j].id
    {
      assert tail[i] == ls[i + 1] && tail[j] == ls[j + 1];
    }
    forall l | l in tail
      ensures l.id != ls[0].id
    {
      var i :| 0 <= i < |tail| && tail[i] == l;
      assert ls[i + 1] == l;
    }
  }

  /** Unregistering keeps ids distinct. */
  lemma {:induction false} UnregisteredDistinct<V>(ls: seq<Listener<V>>, id: nat)
    requires DistinctIds(ls)
    ensures DistinctIds(Unregistered(ls, id))
  {
    if ls != [] {
      DistinctTail(ls);
      UnregisteredDistinct(ls[1..], id);
      if ls[0].id != id {
        var rest := Unregistered(ls[1..], id);
        UnregisteredMembers(ls[1..], id);
        var r := [ls[0]] + rest;
        forall i, j | 0 <= i < j < |r|
          ensures r[i].id != r[j].id
        {
          assert r[j] == rest[j - 1];
          if i > 0 {
            assert r[i] == rest[i - 1];
          } else {
            assert rest[j - 1] in rest;
          }
        }
      }
    }
  }

  /** Unregistering an id that no listener has changes nothing. */
  lemma {:induction false} UnregisterAbsent<V>(ls: seq<Listener<V>>, id: nat)
    requires forall l :: l in ls ==> l.id != id
    ensures Unregistered(ls, id) == ls
  {
    if ls != [] {
      assert ls[0] in ls;
      assert forall l :: l in ls[1..] ==> l in ls;
      UnregisterAbsent(ls[1..], id);
    }
  }

  /** Unregistering twice is unregistering once. */
  lemma UnregisterIdempotent<V>(ls: seq<Listener<V>>, id: nat)
    ensures Unregistered(Unregistered(ls, id), id) == Unregistered(ls, id)
  {
    UnregisteredMembers(ls, id);
    UnregisterAbsent(Unregistered(ls, id), id);
  }

  /** Unregistering the id a listener was just registered under undoes the registration. */
  lemma {:induction false} UnregisterUndoesRegister<V>(ls: seq<Listener<V>>, l: Listener<V>)
    requires forall m :: m in ls ==> m.id != l.id
    ensures Unregistered(ls + [l], l.id) == ls
  {
    if ls == [] {
      assert [l][1..] == [];
    } else {
      assert (ls + [l])[1..] == ls[1..] + [l];
      assert ls[0] in ls;
      assert forall m :: m in ls[1..] ==> m in ls;
      UnregisterUndoesRegister(ls[1..], l);
      assert ls == [ls[0]] + ls[1..];
    }
  }

  /** Unregistering the first listener's id leaves the others. */
  lemma UnregisterHead<V>(ls: seq<Listener<V>>)
    requires DistinctIds(ls) && ls != []
    ensures Unregistered(ls, ls[0].id) == ls[1..]
  {
    DistinctTail(ls);
    UnregisterAbsent(ls[1..], ls[0].id);
  }

  /**
   * With distinct ids, unregistering the id of the listener at `k` removes that
   * one listener and keeps all others in their order.
   */
  lemma {:induction false} UnregisterRemovesOne<V>(ls: seq<Listener<V>>, k: nat)
    requires DistinctIds(ls) && k < |ls|
    ensures Unregistered(ls, ls[k].id) == ls[..k] + ls[k + 1..]
    decreases k
  {
    if k == 0 {
      UnregisterHead(ls);
    } else {
      DistinctTail(ls);
      var tail := ls[1..];
      assert tail[k - 1] == ls[k];
      UnregisterRemovesOne(tail, k - 1);
      assert ls[..k] == [ls[0]] + tail[..k - 1];
      assert ls[k + 1..] == tail[k..];
    }
  }

  /** The calls made by notifying `ls` with `v`. */
  function CallsOf<V>(ls: seq<Listener<V>>, v: V): (r: seq<Call<V>>)
    ensures |r| == |ls|
  {
    if ls == [] then [] else CallsOf(ls[..|ls| - 1], v) + [Call(ls[|ls| - 1].id, v)]
  }

  /** The `k`-th call of a round is the `k`-th listener's, with the round's value. */
  lemma {:induction false} CallsOfAt<V>(ls: seq<Listener<V>>, v: V, k: nat)
    requires k < |ls|
    ensures CallsOf(ls, v)[k] == Call(ls[k].id, v)
    decreases |ls|
  {
    if k < |ls| - 1 {
      CallsOfAt(ls[..|ls| - 1], v, k);
    }
  }

  /** Notifying one more listener of `ls` makes one more call, at the end of the log `log`. */
  lemma CallsOfStep<V>(log: seq<Call<V>>, ls: seq<Listener<V>>, i: nat, v: V)
    requires i < |ls|
    ensures log + CallsOf(ls[..i + 1], v) == log + CallsOf(ls[..i], v) + [Call(ls[i].id, v)]
  {
    assert ls[..i + 1][..i] == ls[..i];
  }

  /** The listener list `ls` after the callback of `l` has run. */
  function AfterCallback<V>(ls: seq<Listener<V>>, l: Listener<V>): seq<Listener<V>>
  {
    match l.callback
    case Unregister(_, victim) => Unregistered(ls, victim)
    case _ => ls
  }

  /** The listener list `ls` after the callbacks of `done` have run in order. */
  function AfterCallbacks<V>(ls: seq<Listener<V>>, done: seq<Listener<V>>): seq<Listener<V>>
    decreases |done|
  {
    if done == [] then ls
    else AfterCallback(AfterCallbacks(ls, done[..|done| - 1]), done[|done| - 1])
  }

  /** Running one more callback of `ls` applies its effect to the list so far. */
  lemma AfterCallbacksStep<V>(ls: seq<Listener<V>>, i: nat)
    requires i < |ls|
    ensures AfterCallbacks(ls, ls[..i + 1]) == AfterCallback(AfterCallbacks(ls, ls[..i]), ls[i])
  {
    assert ls[..i + 1][..i] == ls[..i];
  }

  /**
   * Running callbacks only removes listeners and keeps ids distinct, and a
   * listener whose id some callback unregistered is gone.
   */
  lemma {:induction false} AfterCallbacksRemoves<V>(ls: seq<Listener<V>>, done: seq<Listener<V>>)
    ensures forall l :: l in AfterCallbacks(ls, done) ==> l in ls
    ensures DistinctIds(ls) ==> DistinctIds(AfterCallbacks(ls, done))
    ensures forall d, l :: d in done && d.callback.Unregister? && l in AfterCallbacks(ls, done) ==>
      l.id != d.callback.victim
    decreases |done|
  {
    if done != [] {
      var init := done[..|done| - 1];
      AfterCallbacksRemoves(ls, init);
      var before := AfterCallbacks(ls, init);
      if done[|done| - 1].callback.Unregister? {
        UnregisteredMembers(before, done[|done| - 1].callback.victim);
        if DistinctIds(ls) {
          UnregisteredDistinct(before, done[|done| - 1].callback.victim);
        }
      }
      assert forall d :: d in done ==> d in init || d == done[|done| - 1];
    }
  }

  /** Without `Unregister` callbacks, dispatch leaves the listener list as it was. */
  lemma {:induction false} AfterCallbacksKeeps<V>(ls: seq<Listener<V>>, done: seq<Listener<V>>)
    requires forall d :: d in done ==> !d.callback.Unregister?
    ensures AfterCallbacks(ls, done) == ls
    decreases |done|
  {
    if done != [] {
      assert forall d :: d in done[..|done| - 1] ==> d in done;
      AfterCallbacksKeeps(ls, done[..|done| - 1]);
    }
  }

  /**
   * A notification round calls every listener it started with, so one that an
   * earlier or later callback of the same round unregisters is still called,
   * and is gone once the round ends.
   */
  lemma {:induction false} RemovedMidDispatchStillCalled<V>(ls: seq<Listener<V>>, v: V, j: nat, k: nat)
    requires j < |ls| && k < |ls| && ls[j].callback.Unregister? && ls[j].callback.victim == ls[k].id
    ensures Call(ls[k].id, v) in CallsOf(ls, v)
    ensures ls[k] !in AfterCallbacks(ls, ls)
  {
    CallsOfAt(ls, v, k);
    AfterCallbacksRemoves(ls, ls);
    assert ls[j] in ls;
  }

  /** Distinct listeners recompute distinct computed signals with distinct notifiers. */
  ghost predicate Separate<V>(ls: seq<Listener<V>>)
  {
    forall l, m :: l in ls && m in ls && l != m && l.callback.Recompute? && m.callback.Recompute? ==>
      l.callback.target != m.callback.target && l.callback.target.notifier != m.callback.target.notifier
  }

  /** Dropping listeners keeps them separate. */
  lemma SeparateSubset<V>(ls: seq<Listener<V>>, sub: seq<Listener<V>>)
    requires Separate(ls) && forall l :: l in sub ==> l in ls
    ensures Separate(sub)
  {
  }

  /** The computed signals that listeners of `ls` recompute. */
  ghost function Targets<V>(ls: seq<Listener<V>>): set<ComputedSignal<V>>
  {
    set l | l in ls && l.callback.Recompute? :: l.callback.target
  }

  /** The targets of a prefix one longer. */
  lemma TargetsStep<V>(ls: seq<Listener<V>>, i: nat)
    requires i < |ls|
    ensures Targets(ls[..i + 1]) ==
      Targets(ls[..i]) + (if ls[i].callback.Recompute? then {ls[i].callback.target} else {})
    ensures Targets(ls[..i + 1]) <= Targets(ls)
  {
    assert ls[..i + 1] == ls[..i] + [ls[i]];
    assert forall l :: l in ls[..i + 1] ==> l in ls;
  }

  /** With distinct ids, the target of the `i`-th listener is no earlier listener's target. */
  lemma TargetOnce<V>(ls: seq<Listener<V>>, i: nat)
    requires DistinctIds(ls) && Separate(ls) && i < |ls| && ls[i].callback.Recompute?
    ensures ls[i].callback.target !in Targets(ls[..i])
  {
    assert ls[i] in ls;
    forall m | m in ls[..i] && m.callback.Recompute?
      ensures m.callback.target != ls[i].callback.target
    {
      var j :| 0 <= j < i && ls[..i][j] == m;
      assert ls[j] == m && ls[j].id != ls[i].id;
    }
  }

  /** A listener's target shares its notifier with no other target of the list. */
  lemma TargetNotifierOwn<V>(ls: seq<Listener<V>>, l: Listener<V>)
    requires Separate(ls) && l in ls && l.callback.Recompute?
    ensures forall t :: t in Targets(ls) && t != l.callback.target ==> t.notifier != l.callback.target.notifier
  {
  }

  /** The computed signals that listeners of `ls` recompute, and their notifiers. */
  ghost function Footprint<V>(ls: seq<Listener<V>>): set<object>
  {
    (set t | t in Targets(ls) :: t as object) + (set t | t in Targets(ls) :: t.notifier as object)
  }

  /** The computed signal the callback of `l` recomputes, and its notifier; nothing for other callbacks. */
  ghost function Updated<V>(l: Listener<V>): set<object>
  {
    if l.callback.Recompute? then {l.callback.target, l.callback.target.notifier} else {}
  }

  /** What a computed signal shows: its value, and its notifier's listener list and call log. */
  datatype Observed<V> = Observed(value: V, listeners: seq<Listener<V>>, calls: seq<Call<V>>)

  /**
   * A computed signal in state `o` after it is set to `x`: it holds `x`, and it
   * has notified its listeners with `x` as `NotifyListeners` does.
   */
  function Notified<V>(o: Observed<V>, x: V): Observed<V>
  {
    Observed(x, AfterCallbacks(o.listeners, o.listeners), o.calls + CallsOf(o.listeners, x))
  }

  /** `Notifier`: an ordered listener list, ids from a counter, and a log of the calls made. */
  class Notifier<V> {
    var listeners: seq<Listener<V>>
    var nextId: nat
    var calls: seq<Call<V>>
    /** The notifier and the computed signals (with their notifiers) its callbacks update. */
    ghost var Repr: set<object>
    /**
     * Above the height of every computed signal this notifier's callbacks
     * recompute; it bounds the chain of notifications one `Set` triggers.
     */
    ghost const height: nat

    /** The computed signal `t` may be updated from a callback of this notifier. */
    ghost predicate Reaches(t: ComputedSignal<V>)
      reads this, Repr
    {
      t in Repr && t.notifier in Repr && t.notifier != this && t.notifier.height < height && t.Valid()
    }

    ghost predicate Valid()
      reads this, Repr
    {
      && this in Repr
      && DistinctIds(listeners)
      && (forall l :: l in listeners ==> l.id < nextId)
      && (forall l :: l in listeners && l.callback.Recompute? ==> Reaches(l.callback.target))
      && Separate(listeners)
    }

    /** A notifier whose callbacks recompute no signal: its footprint is itself alone. */
    ghost predicate Plain()
      reads this
    {
      && Repr == {this}
      && DistinctIds(listeners)
      && (forall l :: l in listeners ==> l.id < nextId && !l.callback.Recompute?)
    }

    lemma PlainIsValid()
      requires Plain()
      ensures Valid()
    {
    }

    constructor (ghost height: nat)
      ensures Plain() && this.height == height
      ensures listeners == [] && nextId == 0 && calls == []
    {
      listeners := [];
      nextId := 0;
      calls := [];
      Repr := {this};
      this.height := height;
    }

    /**
     * Appends one listener with a fresh id at the end; the listeners already
     * registered keep their places.
     */
    method RegisterListener(callback: Callback<V>) returns (l: Listener<V>)
      requires Valid()
      requires callback.Recompute? ==>
        && callback.target.Valid() && callback.target.notifier.height < height
        && callback.target !in Repr && callback.target.notifier !in Repr
      modifies this
      ensures Valid()
      ensures l == Listener(old(nextId), callback)
      ensures forall m :: m in old(listeners) ==> m.id != l.id
      ensures listeners == old(listeners) + [l]
      ensures nextId == old(nextId) + 1 && calls == old(calls)
      ensures Repr == old(Repr) + (if callback.Recompute? then {callback.target, callback.target.notifier} else {})
    {
      l := Listener(nextId, callback);
      if callback.Recompute? {
        Repr := Repr + {callback.target, callback.target.notifier};
      }
      listeners := listeners + [l];
      nextId := nextId + 1;
    }

    /** Removes every listener with id `id`, keeping the rest in order; a no-op when there is none. */
    method UnregisterListenerById(id: nat)
      requires Valid()
      modifies this
      ensures Valid()
      ensures listeners == Unregistered(old(listeners), id)
      ensures nextId == old(nextId) && calls == old(calls) && Repr == old(Repr)
    {
      UnregisteredMembers(listeners, id);
      UnregisteredDistinct(listeners, id);
      SeparateSubset(listeners, Unregistered(listeners, id));
      listeners := Unregistered(listeners, id);
    }

    /** Removes the listeners registered under `l`'s id. */
    method UnregisterListener(l: Listener<V>)
      requires Valid()
      modifies this
      ensures Valid()
      ensures listeners == Unregistered(old(listeners), l.id)
      ensures nextId == old(nextId) && calls == old(calls) && Repr == old(Repr)
    {
      UnregisterListenerById(l.id);
    }

    /**
     * Invokes the callback of `l` with `v` and logs the call: a `Record`
     * callback does nothing more, an `Unregister` callback removes its victim's
     * id from this notifier, and a `Recompute` callback sets its computed signal
     * to its function of `v`, which notifies that signal's own listeners.
     * Nothing else in the footprint but this notifier changes.
     */
    method Dispatch(l: Listener<V>, v: V)
      requires Valid() && Separate(listeners + [l])
      requires l.callback.Recompute? ==> Reaches(l.callback.target)
      modifies Repr
      decreases height, 0
      ensures Valid() && Repr == old(Repr) && nextId == old(nextId)
      ensures calls == old(calls) + [Call(l.id, v)]
      ensures listeners == AfterCallback(old(listeners), l)
      ensures l.callback.Recompute? ==>
        l.callback.target.State() == Notified(old(l.callback.target.State()), l.callback.target.compute(v))
      ensures forall t: ComputedSignal<V> :: t in old(Repr) && old(Reaches(t)) ==> Reaches(t)
      ensures forall t: ComputedSignal<V> ::
        t in old(Repr) && old(Reaches(t)) && !(l.callback.Recompute? && t.notifier == l.callback.target.notifier) ==>
        t.State() == old(t.State())
      ensures unchanged(Repr - {this} - Updated(l))
    {
      calls := calls + [Call(l.id, v)];
      match l.callback {
        case Record(_) =>
        case Unregister(_, victim) =>
          UnregisteredMembers(listeners, victim);
          UnregisteredDistinct(listeners, victim);
          SeparateSubset(listeners, Unregistered(listeners, victim));
          listeners := Unregistered(listeners, victim);
        case Recompute(target) =>
          target.Set(target.compute(v));
          SeparateSubset(listeners + [l], listeners);
      }
    }

    /**
     * One step of a notification round that started with the listeners
     * `snapshot`, the log `log` and its targets in the states `start`:
     * dispatches the `i`-th listener of the round.
     */
    method NotifyOne(ghost log: seq<Call<V>>, ghost start: map<ComputedSignal<V>, Observed<V>>,
                     snapshot: seq<Listener<V>>, i: nat, v: V)
      requires i < |snapshot| && Valid() && Separate(snapshot) && DistinctIds(snapshot)
      requires forall l :: l in listeners ==> l in snapshot
      requires forall t :: t in Targets(snapshot) ==> Reaches(t) && t in start
      requires calls == log + CallsOf(snapshot[..i], v)
      requires listeners == AfterCallbacks(snapshot, snapshot[..i])
      requires forall t :: t in Targets(snapshot[..i]) ==> t.State() == Notified(start[t], t.compute(v))
      requires forall t :: t in Targets(snapshot) && t !in Targets(snapshot[..i]) ==> t.State() == start[t]
      modifies Repr
      decreases height, 1
      ensures Valid() && Repr == old(Repr) && nextId == old(nextId)
      ensures forall l :: l in listeners ==> l in snapshot
      ensures forall t :: t in Targets(snapshot) ==> Reaches(t)
      ensures calls == log + CallsOf(snapshot[..i + 1], v)
      ensures listeners == AfterCallbacks(snapshot, snapshot[..i + 1])
      ensures forall t :: t in Targets(snapshot[..i + 1]) ==> t.State() == Notified(start[t], t.compute(v))
      ensures forall t :: t in Targets(snapshot) && t !in Targets(snapshot[..i + 1]) ==> t.State() == start[t]
      ensures unchanged(Repr - {this} - Footprint(snapshot))
    {
      var l := snapshot[i];
      assert l.callback.Recompute? ==> l.callback.target in Targets(snapshot);
      SeparateSubset(snapshot, listeners + [l]);
      ghost var before := listeners;
      CallsOfStep(log, snapshot, i, v);
      AfterCallbacksStep(snapshot, i);
      TargetsStep(snapshot, i);
      if l.callback.Recompute? {
        TargetOnce(snapshot, i);
        TargetNotifierOwn(snapshot, l);
        assert l.callback.target in Footprint(snapshot) && l.callback.target.notifier in Footprint(snapshot);
      }
      Dispatch(l, v);
      if l.callback.Unregister? {
        UnregisteredMembers(before, l.callback.victim);
      }
    }

    /**
     * Calls every listener registered when the round starts, once each, in
     * registration order, with `v`. A listener unregistered during the round
     * is still called in it. Each computed signal on the list ends the round
     * holding its function of `v` and having notified its own listeners with
     * it; nothing else in the footprint but this notifier changes.
     */
    method NotifyListeners(v: V)
      requires Valid()
      modifies Repr
      decreases height, 2
      ensures Valid() && Repr == old(Repr) && nextId == old(nextId)
      ensures calls == old(calls) + CallsOf(old(listeners), v)
      ensures listeners == AfterCallbacks(old(listeners), old(listeners))
      ensures forall t :: t in Targets(old(listeners)) ==> t.State() == Notified(old(t.State()), t.compute(v))
      ensures unchanged(Repr - {this} - Footprint(old(listeners)))
    {
      var snapshot := listeners;
      ghost var start := map t | t in Targets(snapshot) :: t.State();
      var i := 0;
      while i < |snapshot|
        invariant 0 <= i <= |snapshot|
        invariant Valid() && Repr == old(Repr) && nextId == old(nextId)
        invariant forall l :: l in listeners ==> l in snapshot
        invariant forall t :: t in Targets(snapshot) ==> Reaches(t)
        invariant calls == old(calls) + CallsOf(snapshot[..i], v)
        invariant listeners == AfterCallbacks(snapshot, snapshot[..i])
        invariant forall t :: t in Targets(snapshot[..i]) ==> t.State() == Notified(start[t], t.compute(v))
        invariant forall t :: t in Targets(snapshot) && t !in Targets(snapshot[..i]) ==> t.State() == start[t]
        invariant unchanged(old(Repr) - {this} - Footprint(snapshot))
      {
        NotifyOne(old(calls), start, snapshot, i, v);
        i := i + 1;
      }
      assert snapshot[..i] == snapshot;
    }
  }

  /** `Signal`: a value and the notifier that announces each new value. */
  class Signal<V> {
    var value: V
    const notifier: Notifier<V>

    ghost predicate Valid()
      reads this, notifier, notifier.Repr
    {
      this !in notifier.Repr && notifier.height == 1 && notifier.Valid()
    }

    constructor (value: V)
      ensures Valid() && fresh(notifier) && notifier.Repr == {notifier}
      ensures this.value == value && notifier.listeners == [] && notifier.calls == []
    {
      this.value := value;
      notifier := new Notifier(1);
      new;
      notifier.PlainIsValid();
    }

    function Get(): V
      reads this
    {
      value
    }

    /**
     * Stores `v` and then notifies every listener with it, even when `v` equals
     * the old value; each computed signal on the list then holds its function
     * of `v` and has notified its own listeners with it, and nothing else in
     * the footprint changes.
     */
    method Set(v: V)
      requires Valid()
      modifies this`value, notifier.Repr
      ensures Valid() && value == v
      ensures notifier.calls == old(notifier.calls) + CallsOf(old(notifier.listeners), v)
      ensures notifier.listeners == AfterCallbacks(old(notifier.listeners), old(notifier.listeners))
      ensures notifier.nextId == old(notifier.nextId) && notifier.Repr == old(notifier.Repr)
      ensures forall t :: t in Targets(old(notifier.listeners)) ==> t.State() == Notified(old(t.State()), t.compute(v))
      ensures unchanged(notifier.Repr - {notifier} - Footprint(old(notifier.listeners)))
    {
      value := v;
      notifier.NotifyListeners(v);
    }
  }

  /**
   * `ComputedSignal`: a value derived from a signal by `compute`, kept up to
   * date by one listener registered on that signal.
   */
  class ComputedSignal<V> {
    var value: V
    const dependency: Signal<V>
    const compute: V -> V
    const notifier: Notifier<V>
    /** The id of the listener this signal registered on its dependency; set once, by the constructor. */
    const dependencyId: nat

    ghost predicate Valid()
      reads this, notifier
    {
      notifier.height == 0 && notifier.Plain()
    }

    /** The listener this signal registered on its dependency. */
    function DependencyListener(): Listener<V>
    {
      Listener(dependencyId, Recompute(this))
    }

    /** The value, and the listener list and call log of this signal's own notifier. */
    ghost function State(): Observed<V>
      reads this, notifier
    {
      Observed(value, notifier.listeners, notifier.calls)
    }

    /**
     * Starts from `compute` of the dependency's current value and appends
     * exactly one listener, which recomputes this signal, to the dependency.
     */
    constructor (dependency: Signal<V>, compute: V -> V)
      requires dependency.Valid()
      modifies dependency.notifier
      ensures Valid() && dependency.Valid() && fresh(notifier)
      ensures this.dependency == dependency && this.compute == compute
      ensures value == compute(dependency.value)
      ensures notifier.listeners == [] && notifier.calls == [] && notifier.nextId == 0
      ensures DependencyListener() == Listener(old(dependency.notifier.nextId), Recompute(this))
      ensures dependency.notifier.listeners == old(dependency.notifier.listeners) + [DependencyListener()]
      ensures dependency.notifier.calls == old(dependency.notifier.calls)
      ensures dependency.notifier.Repr == old(dependency.notifier.Repr) + {this, notifier}
    {
      this.dependency := dependency;
      this.compute := compute;
      value := compute(dependency.Get());
      notifier := new Notifier(0);
      dependencyId := dependency.notifier.nextId;
      new;
      var registered := dependency.notifier.RegisterListener(Recompute(this));
    }

    function Get(): V
      reads this
    {
      value
    }

    /** Stores `v` and then notifies this signal's own listeners with it. */
    method Set(v: V)
      requires Valid()
      modifies this`value, notifier
      decreases notifier.height, 3
      ensures Valid() && notifier.nextId == old(notifier.nextId)
      ensures State() == Notified(old(State()), v)
    {
      value := v;
      notifier.PlainIsValid();
      ghost var before := notifier.listeners;
      notifier.NotifyListeners(v);
      AfterCallbacksRemoves(before, before);
    }

    /**
     * Unregisters this signal's listener from its dependency. With distinct
     * ids it removes exactly that listener; the others keep their order, and
     * the dependency makes no call.
     */
    method Destroy()
      requires dependency.Valid()
      modifies dependency.notifier
      ensures dependency.Valid()
      ensures dependency.notifier.listeners == Unregistered(old(dependency.notifier.listeners), dependencyId)
      ensures dependency.notifier.calls == old(dependency.notifier.calls)
      ensures dependency.notifier.nextId == old(dependency.notifier.nextId)
      ensures dependency.notifier.Repr == old(dependency.notifier.Repr)
      ensures forall k :: (0 <= k < |old(dependency.notifier.listeners)| &&
          old(dependency.notifier.listeners)[k] == DependencyListener()) ==>
        dependency.notifier.listeners ==
          old(dependency.notifier.listeners)[..k] + old(dependency.notifier.listeners)[k + 1..]
    {
      ghost var before := dependency.notifier.listeners;
      dependency.notifier.UnregisterListener(DependencyListener());
      forall k | 0 <= k < |before| && before[k] == DependencyListener()
        ensures dependency.notifier.listeners == before[..k] + before[k + 1..]
      {
        UnregisterRemovesOne(before, k);
      }
    }
  }

  /**
   * A computed signal doubling a signal that starts at 5 follows it to 14 when
   * it is set to 7; once destroyed it keeps 14 when the signal is set to 9, and
   * the signal has no listener left.
   */
  method DestroyScenario() returns (updated: int, afterDestroy: int, remaining: nat)
    ensures updated == 14 && afterDestroy == 14 && remaining == 0
  {
    var source := new Signal<int>(5);
    var doubled := new ComputedSignal(source, x => 2 * x);
    ghost var registered := [doubled.DependencyListener()];
    assert registered[0] in registered && registered[..0] == [] && registered[1..] == [];
    assert doubled in Targets(registered);
    source.Set(7);
    updated := doubled.Get();
    doubled.Destroy();
    remaining := |source.notifier.listeners|;
    assert Footprint(source.notifier.listeners) == {};
    source.Set(9);
    afterDestroy := doubled.Get();
  }
}

=== FILE: wrappers.dfy ===
/** Optional values and results, standing in for TypeScript's `undefined` and for thrown exceptions. */
module Wrappers {

  /** `None` is TypeScript's `undefined`. */
  datatype Option<+T> = None | Some(value: T)

  /** The outcome of a call that either returns a value or throws. */
  datatype Result<+T, +E> = Success(value: T) | Failure(error: E)
}
